=== FILE: README.md ===
# novel-prompter data model in Dafny

This project models the data layer of novel-prompter, an authoring tool for writers. The layer lives in `data.js`.

- **Story hierarchy.** A `Story` holds an ordered array of `Chapter` objects. A `Chapter` holds an ordered array of `Scene` objects. A `Scene` holds a draft `text` and a `summary`.
- **Addressing.** Chapters and scenes are addressed only by position. Adding appends and returns the new index. Lookups, updates, removals and `addSceneToChapter` check bounds: out of range, they return `null`, `false` or `-1` and change nothing. Removal splices the array, so every later element moves down one place.
- **Entries.** A world-building `Entry` has a title, a type, a `global` text and a description. It holds exactly one `Detail` object, which is a title/value pair.
- **Derived views.** A scene's word count, a chapter's summary (the scene summaries joined by single spaces), the story statistics (chapters, scenes, words) and the story outline (one numbered record per chapter).

## Layout

- `words.dfy` (module `Words`) models word counting, `text.split(/\s+/).filter(w => w.length > 0).length`.
  - `IsSpace` is JavaScript's `\s` character class.
  - `Split` is the split on maximal whitespace runs, including the empty pieces at either end.
  - `NonEmpty` is the filter.
  - The word count is proved equal to an independent count: the positions where a word starts.
  - The words themselves are proved to be, in order, the maximal non-whitespace runs that begin at those positions.
- `seqs.dfy` (module `Seqs`) holds the array and string operations the classes use.
  - `RemoveAt` is `splice(i, 1)`.
  - `Join` is `join(sep)`, with its inverse `SplitOn` and round-trip lemmas in both directions.
- `story_values.dfy` (module `StoryValues`) holds the value a story holds, as sequences of `(text, summary)` pairs. It defines the statistics, the chapter summary and the outline on those values, with the lemmas that relate them. The statistics are proved equal to totals over the flattened list of all scenes. The outline's scene counts are proved to add up to the statistics' scene total. Each operation's effect on the totals is a lemma of its own.
- `narrative.dfy` (module `Narrative`) holds the classes `Scene`, `Chapter` and `Story`.
  - `Valid()` is the structural invariant: each chapter owns its scene objects, no object sits at two positions, and different chapters own disjoint objects.
  - `Model()` reads the current value off the heap.
  - Each mutating method states its new `Model()` in terms of the old one.
  - Because `Model()` is a function of the heap, a caller can take a scene from `GetScene` and update it directly, as the application's own `updateScene` does. The chapter stays valid and its value shows the change; `Example.EditSceneDirectly` proves this for that path. A scene added through a chapter handle (`story.getChapter(i).addScene(...)`) is a new object: the story is valid again once the new object joins its `Repr`, as `Example.AddSceneThroughHandle` shows.
- `entries.dfy` (module `Entries`) holds the classes `Detail` and `Entry`. An `Entry` holds one `detail` object (data.js:31), and `global` is a text field (data.js:29). The detail is an object reference, so entries built around the same `Detail` share it.
- `example.dfy` (module `Example`) holds callers proved from the contracts alone: the usage example at the end of `data.js`, adding a scene then removing it again, and the application's direct scene edit.

## Model

| member | source | states |
|---|---|---|
| `Words.Split` | data.js:72 | The split always yields at least one piece, and no piece contains whitespace. The first piece is empty exactly when the text is empty or starts with whitespace. |
| `Words.NonEmpty` | data.js:72 | The filter keeps only non-empty pieces, each one taken from the input, and never more of them than the input had. Every non-empty piece of the input is kept. |
| `Words.NonEmptyConcat` | data.js:72 | The filter works piece by piece: filtering a concatenation concatenates the filtered parts, so the kept pieces stay in their order. |
| `Words.WordsOf` | data.js:72 | Every word of a text is non-empty and free of whitespace. |
| `Words.StartsAfterExact` | data.js:72 | `StartsAfter(s, i)` holds exactly the word starts from `i` on: each is a word start, the list is strictly increasing, and no word start is missing. |
| `Words.SplitFromWords` | data.js:72 | From the start of the text, or any position right after whitespace, the non-empty split pieces are the runs at the word starts from there on, in order. |
| `Words.WordsAreRuns` | data.js:72 | The words of a text are exactly, in order, the maximal non-whitespace runs that begin at its word starts. |
| `Words.WordCount` | data.js:72 | The word count equals the number of word starts: positions holding a non-whitespace character at the start of the text or right after whitespace. |
| `Words.SplitFromCount` | data.js:72 | From the start of the text, or any position right after whitespace, the non-empty split pieces and the word starts are equally many. This is the induction behind the word count. |
| `Words.BlankHasNoWords` | data.js:72 | The word count is 0 exactly when the text is empty or all whitespace. |
| `Seqs.RemoveAt` | data.js:110-115 | After `splice(i, 1)` the array is one shorter. Elements before `i` keep their index, later ones move down one place, and exactly the element at `i` is gone (multiset). |
| `Seqs.Join` | data.js:124 | Joining a single element gives that element. |
| `Seqs.SplitJoin` | data.js:124 | Joining at least one piece, none containing the separator, and splitting on it again gives the pieces back. |
| `Seqs.JoinSplit` | data.js:124 | Splitting a string on a separator and joining with it again gives the string back. |
| `Seqs.JoinAppend` | data.js:124 | Joining a non-empty list with one more element appends the separator and that element. |
| `StoryValues.Summaries` | data.js:124 | The summaries are one per scene, in scene order. |
| `StoryValues.ChapterSummaryAppend` | data.js:122-125 | After a scene is added, the chapter summary is the old summary, one space, and the new scene's summary. With no earlier scene, it is the new summary alone. |
| `StoryValues.ChapterSummarySplits` | data.js:122-125 | For a chapter with at least one scene and no space in any scene summary, the chapter summary splits on spaces back into the scene summaries. |
| `StoryValues.OutlineOf` | data.js:193-199 | The outline has one record per chapter, in order. Record `i` has chapter number `i + 1`, that chapter's scene count and its chapter summary. |
| `StoryValues.TotalsAreFlattened` | data.js:174-190 | The scene total is the length of the list of all scenes in reading order. The word total is the sum of word counts over that same list. |
| `StoryValues.AddSceneTotals` | data.js:165-171 | Adding a scene to a chapter keeps the chapter count. It adds exactly one scene and exactly that scene's words. |
| `StoryValues.AddChapterTotals` | data.js:137-141 | Adding a chapter adds one chapter and no scenes or words. The outline gains one record at the end, numbered after the others, with no scenes and an empty summary. |
| `StoryValues.RemoveChapterTotals` | data.js:152-157 | Removing a chapter removes one chapter, exactly its scenes and exactly its words. |
| `StoryValues.OutlineCountsSumToTotal` | data.js:193-199 | The outline's scene counts add up to the statistics' scene total. The outline has as many records as the statistics count chapters. |
| `Narrative.Scene.constructor` | data.js:59-62 | A new scene holds the given text and summary. |
| `Narrative.Scene.Update` | data.js:65-68 | The scene's text and summary become the given ones. |
| `Narrative.Scene.GetWordCount` | data.js:71-73 | A scene's word count is the number of word starts in its text. |
| `Narrative.Chapter.constructor` | data.js:80-82 | A new chapter is valid and has no scenes. |
| `Narrative.Chapter.AddScene` | data.js:85-89 | The chapter's value gains the new scene at the end. The returned index is the new length minus one. Earlier scene objects stay at their positions. Only fresh objects join the chapter. |
| `Narrative.Chapter.GetScene` | data.js:92-97 | The result is null exactly when the index is out of range. Otherwise it is the scene object at that index, holding that position's value. |
| `Narrative.Chapter.UpdateScene` | data.js:100-107 | The result is true exactly when the index is in range. Then only that position's text and summary change, in place. Out of range nothing changes. |
| `Narrative.Chapter.RemoveScene` | data.js:110-115 | In range, the removed scene object is returned, and both the scene objects and the value lose that element, with later scenes moving down. Out of range the result is null and nothing changes, not even the order of the objects. |
| `Narrative.Chapter.GetSceneCount` | data.js:118-120 | The count equals the number of scenes in the chapter's value. |
| `Narrative.Chapter.GetChapterSummary` | data.js:123-125 | The result is the chapter summary of the chapter's value: its scene summaries joined by single spaces. |
| `Narrative.Story.constructor` | data.js:132-134 | A new story is valid and has no chapters. |
| `Narrative.Story.AddChapter` | data.js:137-141 | The story's value gains an empty chapter at the end. The returned index is the new length minus one. Earlier chapter objects stay in place. |
| `Narrative.Story.GetChapter` | data.js:144-149 | The result is null exactly when the index is out of range. Otherwise it is the chapter object at that index: valid, owned by the story, holding that position's value. |
| `Narrative.Story.RemoveChapter` | data.js:152-157 | In range, the removed chapter is returned with its value, and both the chapter objects and the story's value lose that chapter, with later chapters moving down. Out of range the result is null and nothing changes, not even the order of the objects. |
| `Narrative.Story.GetChapterCount` | data.js:160-162 | The count equals the number of chapters in the story's value. |
| `Narrative.Story.AddSceneToChapter` | data.js:165-171 | For a valid chapter index, the scene is appended to that chapter only and its index there is returned. Otherwise the result is -1 and the story's value is unchanged. On both paths every existing scene object stays at its position: other chapters keep their scene arrays, and the target chapter's old scenes are a prefix of its new ones. |
| `Narrative.Story.GetStoryStats` | data.js:174-190 | The two loops compute the chapter count, the scene total and the word total of the story's value. |
| `Narrative.Story.GetStoryOutline` | data.js:193-199 | The outline is the outline of the story's value. |
| `Entries.Detail.constructor` | data.js:5-8 | A new detail holds the given title and value. |
| `Entries.Detail.Update` | data.js:11-14 | The detail's title and value become the given ones. |
| `Entries.Detail.GetFormattedDetail` | data.js:17-19 | The result is "title: value": its length is the title's plus the value's plus 2, and for a title without a colon the title and value can be read back from it. |
| `Entries.Entry.constructor` | data.js:26-32 | The four text fields are stored. A given detail is shared, not copied. A missing detail becomes a fresh empty one. |
| `Entries.Entry.SetDetail` | data.js:35-41 | Afterwards the entry's detail has the given title and value. An existing detail object is updated in place, and a missing one is created. The other fields are unchanged. |
| `Entries.Entry.GetSummary` | data.js:44-52 | The summary carries the entry's four text fields and the formatted detail, from which a colon-free title and the value can be read back. |
| `Example.TwoEmptyChapters` | data.js:216-221 | A new story after two `addChapter` calls holds two empty chapters, at indices 0 and 1. |
| `Example.BuildExampleStory` | data.js:216-228 | The example's calls build two chapters, the first holding the first two scenes in order and the second the third, for any three scenes. |
| `Example.StoryExample` | data.js:216-235 | The example story's statistics report 2 chapters and 3 scenes. |
| `Example.EntryExample` | data.js:230-232 | The example entry keeps its title and global text, and its summary's detail reads back as ("Genre", "Gothic Horror"). |
| `Example.EditSceneDirectly` | app.js:164-174 | Looking a scene up through the story and its chapter and assigning its text and summary directly keeps the story valid. Only that position's value changes, and a field given no new value keeps its old one. |
| `Example.AddSceneThroughHandle` | data.js:144-149 | Adding a scene through the chapter object the story returns, then taking the new scene into the story's footprint, keeps the story valid. The story's value gains the scene at the end of that chapter only. |
| `Example.AddThenRemoveScene` | data.js:85-115 | Removing a scene at the index that adding it returned restores the chapter's value and hands back the added scene. |

## Left out

- The user interface (`app.js`) and the desktop shell with its file dialogs and file I/O (`index.js`) are not part of this model, except the scene edit of `app.js` (`Example.EditSceneDirectly`).
- `Example.EditSceneDirectly`: requires both indices to be in range. The application's helper dereferences the lookups without a null check, so out of range it throws a TypeError, and that exception is not modelled.
- A prompt compiler, an entity linker that matches entry titles in text, and a detail-type registry are not present in `data.js`. They are not modelled.
- Indices are integers. JavaScript also accepts fractional or non-numeric indices, which can pass the range test and read `undefined`.
- Constructor and method default arguments (`''`, `null`) are not modelled. Callers pass every argument.
- `instanceof Detail` is modelled as "the detail is not null". Other non-`Detail` values a caller might store in the field are not modelled.
- The fields of the JavaScript objects are public. A caller that reassigns `scenes` or `chapters` directly, or places one scene object at two positions, is outside `Valid()`. Every object the model creates is fresh, so its own operations never do this. A scene added through a chapter handle is in the chapter's footprint but not yet in the story's; the story is valid again once the caller adds it there (`Example.AddSceneThroughHandle`).
- `Entries.Entry.GetSummary`: requires a non-null detail. In JavaScript a null detail makes `getSummary()` throw a TypeError, and that exception is not modelled.
- `Words.Split`: states the first piece and, through `Words.WordsAreRuns`, every non-empty piece; whether the last piece is empty (a text ending in whitespace) is not stated separately, nor that no inner piece is empty.
- `Example.StoryExample`: states the chapter and scene counts of the example but not its word total (19); that would need the word count of each literal text evaluated.
- Which characters count as whitespace follows the ECMAScript definition of `\s`. No Unicode-version differences are modelled.

=== FILE: entries.dfy ===
/**
 * World-building entries of data.js: an `Entry` (title, type, `global` text,
 * description) holding one `Detail` object (a title/value pair). The detail is an
 * object reference, so two entries built around the same `Detail` share it and an
 * update through one is seen through the other.
 */
module Entries {
  import Seqs

  datatype Option<T> = None | Some(value: T)

  datatype DetailData = DetailData(title: string, value: string)

  /** The record returned by `getSummary()`. */
  datatype EntrySummary = EntrySummary(
    title: string, entryType: string, global: string, description: string, detail: string)

  /** Reads a formatted detail back: the title is everything before the first
      colon, which must be followed by one space; the value is what comes after. */
  function ParseDetail(s: string): Option<DetailData> {
    var t := Seqs.UpTo(s, ':');
    if |t| + 1 < |s| && s[|t| + 1] == ' ' then Some(DetailData(t, s[|t| + 2..])) else None
  }

  class Detail {
    var title: string
    var value: string

    constructor (title: string, value: string)
      ensures this.title == title && this.value == value
    {
      this.title := title;
      this.value := value;
    }

    /** `update(title, value)` */
    method Update(title: string, value: string)
      modifies this
      ensures this.title == title && this.value == value
    {
      this.title := title;
      this.value := value;
    }

    /** `getFormattedDetail()`: "title: value". A title without a colon can be
        read back from it together with the value. */
    function GetFormattedDetail(): (r: string)
      reads this
      ensures |r| == |title| + 2 + |value|
      ensures ':' !in title ==> ParseDetail(r) == Some(DetailData(title, value))
    {
      var r := title + ": " + value;
      assert ':' !in title ==> Seqs.UpTo(r, ':') == title by {
        if ':' !in title {
          assert r == title + [':'] + (" " + value);
          Seqs.UpToSeparated(title, ':', " " + value);
        }
      }
      r
    }
  }

  class Entry {
    var title: string
    var entryType: string
    var global: string
    var description: string
    var detail: Detail?

    /** A missing detail is replaced by a new empty one; a given one is shared. */
    constructor (title: string, entryType: string, global: string, description: string, detail: Detail?)
      ensures this.title == title && this.entryType == entryType
      ensures this.global == global && this.description == description
      ensures detail != null ==> this.detail == detail
      ensures detail == null ==>
        this.detail != null && fresh(this.detail) && this.detail.title == "" && this.detail.value == ""
    {
      this.title := title;
      this.entryType := entryType;
      this.global := global;
      this.description := description;
      if detail != null {
        this.detail := detail;
      } else {
        this.detail := new Detail("", "");
      }
    }

    /** `setDetail(title, value)`: updates the held detail object in place, or
        creates one when the entry holds none. */
    method SetDetail(title: string, value: string)
      modifies this, detail
      ensures detail != null && detail.title == title && detail.value == value
      ensures old(detail) != null ==> detail == old(detail)
      ensures old(detail) == null ==> fresh(detail)
      ensures this.title == old(this.title) && entryType == old(entryType)
      ensures global == old(global) && description == old(description)
    {
      if detail != null {
        detail.Update(title, value);
      } else {
        detail := new Detail(title, value);
      }
    }

    /** `getSummary()`: the entry's fields with the detail formatted. */
    function GetSummary(): (r: EntrySummary)
      reads this, detail
      requires detail != null
      ensures r.title == title && r.entryType == entryType
      ensures r.global == global && r.description == description
      ensures ':' !in detail.title ==> ParseDetail(r.detail) == Some(DetailData(detail.title, detail.value))
    {
      EntrySummary(title, entryType, global, description, detail.GetFormattedDetail())
    }
  }
}

=== FILE: example.dfy ===
/**
 * Callers of the data classes, proved from their contracts alone.
 */
module Example {
  import Seqs
  import opened StoryValues
  import opened Narrative
  import opened Entries

  const SceneA := SceneData("It was a dark and stormy night...", "Introduction to the mysterious evening")
  const SceneB := SceneData("The protagonist enters the old mansion.", "Character arrives at main location")
  const SceneC := SceneData("Strange noises echo through the halls.", "Building tension and mystery")

  /** The first steps of the usage example: a new story with two chapters. */
  method TwoEmptyChapters() returns (story: Story, first: int, second: int)
    ensures story.Valid() && fresh(story.Repr)
    ensures first == 0 && second == 1
    ensures story.Model() == [[], []]
  {
    story := new Story();
    first := story.AddChapter();
    second := story.AddChapter();
    ghost var none: seq<ChapterData> := [];
    assert none + [[]] + [[]] == [[], []];
  }

  /** The story of the usage example at the end of data.js, for any three scenes:
      two chapters, the scenes `a` and `b` in the first and `c` in the second. */
  method BuildExampleStory(a: SceneData, b: SceneData, c: SceneData) returns (story: Story, first: int, second: int)
    ensures story.Valid() && fresh(story.Repr)
    ensures first == 0 && second == 1
    ensures story.Model() == [[a, b], [c]]
  {
    story, first, second := TwoEmptyChapters();
    ghost var m0 := story.Model();
    var s0 := story.AddSceneToChapter(first, a.text, a.summary);
    ghost var m1 := story.Model();
    var s1 := story.AddSceneToChapter(first, b.text, b.summary);
    ghost var m2 := story.Model();
    var s2 := story.AddSceneToChapter(second, c.text, c.summary);
    ExampleSteps(m0, m1, m2, story.Model(), a, b, c);
  }

  lemma ExampleSteps(m0: seq<ChapterData>, m1: seq<ChapterData>, m2: seq<ChapterData>, m3: seq<ChapterData>,
                     a: SceneData, b: SceneData, c: SceneData)
    requires m0 == [[], []]
    requires m1 == m0[0 := m0[0] + [a]]
    requires m2 == m1[0 := m1[0] + [b]]
    requires m3 == m2[1 := m2[1] + [c]]
    ensures m3 == [[a, b], [c]]
  {
    assert [] + [a] == [a];
    assert m1 == [[a], []];
    assert [a] + [b] == [a, b];
    assert m2 == [[a, b], []];
    assert [] + [c] == [c];
  }

  /** The statistics of the usage example: two chapters and three scenes. The
      word total is not stated here: it would require evaluating the word count of
      each literal text, which the contracts leave to `Words.WordCount`. */
  method StoryExample() returns (stats: Stats)
    ensures stats.chapters == 2 && stats.scenes == 3
  {
    var story, first, second := BuildExampleStory(SceneA, SceneB, SceneC);
    TwoThenOne(SceneA, SceneB, SceneC);
    stats := story.GetStoryStats();
  }

  lemma TwoThenOne(a: SceneData, b: SceneData, c: SceneData)
    ensures TotalScenes([[a, b], [c]]) == 3
  {
    assert [[a, b], [c]] == [[a, b]] + [[c]];
    TotalsConcat([[a, b]], [[c]]);
    TotalsSingle([a, b]);
    TotalsSingle([c]);
  }

  /** The entry half of the usage example: an entry built without a detail, whose
      detail is then set. */
  method EntryExample() returns (summary: EntrySummary)
    ensures summary.title == "My Horror Story" && summary.global == "Public"
    ensures ParseDetail(summary.detail) == Some(DetailData("Genre", "Gothic Horror"))
  {
    var entry := new Entry("My Horror Story", "Fiction", "Public", "A thrilling horror story", null);
    entry.SetDetail("Genre", "Gothic Horror");
    summary := entry.GetSummary();
  }

  /** Adding a scene and then removing it at the index returned leaves the
      chapter's value as it was and hands back the new scene. */
  method AddThenRemoveScene(chapter: Chapter, text: string, summary: string) returns (removed: Scene?)
    requires chapter.Valid()
    modifies chapter
    ensures chapter.Valid()
    ensures chapter.Model() == old(chapter.Model())
    ensures removed != null && removed.Data() == SceneData(text, summary)
  {
    var index := chapter.AddScene(text, summary);
    removed := chapter.RemoveScene(index);
    assert Seqs.RemoveAt(old(chapter.Model()) + [SceneData(text, summary)], index) == old(chapter.Model());
  }

  /** The application's own scene editor: it looks the scene up through the story
      and its chapter, then assigns the fields of the scene object directly, each
      only when a new value is given. The story stays valid and its value shows
      the edit at that position alone. */
  method EditSceneDirectly(story: Story, chapterIndex: int, sceneIndex: int,
                           summary: Option<string>, text: Option<string>)
    requires story.Valid()
    requires 0 <= chapterIndex < |story.Model()| && 0 <= sceneIndex < |story.Model()[chapterIndex]|
    modifies story.Repr
    ensures story.Valid() && story.Repr == old(story.Repr) && story.chapters == old(story.chapters)
    ensures story.Model() == old(story.Model())[chapterIndex :=
      old(story.Model())[chapterIndex][sceneIndex := SceneData(
        if text.Some? then text.value else old(story.Model())[chapterIndex][sceneIndex].text,
        if summary.Some? then summary.value else old(story.Model())[chapterIndex][sceneIndex].summary)]]
  {
    var chapter := story.GetChapter(chapterIndex);
    var scene := chapter.GetScene(sceneIndex);
    ghost var m := story.Model();
    ghost var cm := chapter.Model();
    assert forall c :: 0 <= c < |story.chapters| && c != chapterIndex ==>
      scene !in story.chapters[c].Repr;
    var newSummary := if summary.Some? then summary.value else scene.summary;
    var newText := if text.Some? then text.value else scene.text;
    scene.summary, scene.text := newSummary, newText;
    assert chapter.Valid();
    assert chapter.Model() == cm[sceneIndex := scene.Data()];
    assert story.Valid();
    assert forall c :: 0 <= c < |story.chapters| ==>
      story.chapters[c].Model() == m[chapterIndex := cm[sceneIndex := scene.Data()]][c];
  }

  /** `story.getChapter(i).addScene(text, summary)`: a scene added through the
      chapter handle the story returns. The new scene object joins the story's
      footprint, after which the story is valid again and its statistics and outline
      see the scene. */
  method AddSceneThroughHandle(story: Story, chapterIndex: int, text: string, summary: string)
    returns (index: int)
    requires story.Valid()
    requires 0 <= chapterIndex < |story.Model()|
    modifies story, story.Repr
    ensures story.Valid() && fresh(story.Repr - old(story.Repr))
    ensures index == |old(story.Model())[chapterIndex]|
    ensures story.Model() == old(story.Model())[chapterIndex :=
      old(story.Model())[chapterIndex] + [SceneData(text, summary)]]
  {
    var chapter := story.GetChapter(chapterIndex);
    index := chapter.AddScene(text, summary);
    story.Repr := story.Repr + chapter.Repr;
  }
}

=== FILE: narrative.dfy ===
/**
 * The story hierarchy of data.js as objects: a `Story` holds an array of
 * `Chapter` objects, a `Chapter` an array of `Scene` objects, and both address
 * their elements by position only.
 *
 * `Valid()` is the structural invariant (each chapter owns its scenes, no two
 * positions hold the same object, chapters own disjoint objects) and `Model()` reads
 * the current value off the heap. Because `Model()` is a function of the heap, a
 * caller that updates a `Scene` it obtained from `GetScene` keeps the chapter valid
 * and sees the change in the chapter's value (`Example.EditSceneDirectly`).
 */
module Narrative {
  import Words
  import Seqs
  import opened StoryValues

  class Scene {
    var text: string
    var summary: string

    constructor (text: string, summary: string)
      ensures this.text == text && this.summary == summary
    {
      this.text := text;
      this.summary := summary;
    }

    /** `update(text, summary)` */
    method Update(text: string, summary: string)
      modifies this
      ensures this.text == text && this.summary == summary
    {
      this.text := text;
      this.summary := summary;
    }

    function Data(): SceneData
      reads this
    {
      SceneData(text, summary)
    }

    /** `getWordCount()`: the number of words of the draft text. */
    function GetWordCount(): (n: nat)
      reads this
      ensures n == Words.CountWordStarts(text, |text|)
    {
      Words.WordCount(text)
    }
  }

  class Chapter {
    var scenes: seq<Scene>
    ghost var Repr: set<object>

    ghost predicate Valid()
      reads this, Repr
    {
      this in Repr &&
      (forall i :: 0 <= i < |scenes| ==> scenes[i] in Repr) &&
      (forall i, j :: 0 <= i < j < |scenes| ==> scenes[i] != scenes[j])
    }

    /** The chapter's value: its scenes' (text, summary) pairs, in order. */
    ghost function Model(): (m: ChapterData)
      reads this, Repr
      requires Valid()
      ensures |m| == |scenes|
      ensures forall i :: 0 <= i < |scenes| ==> m[i] == scenes[i].Data()
    {
      seq(|scenes|, i reads this, Repr requires 0 <= i < |scenes| && Valid() => scenes[i].Data())
    }

    constructor ()
      ensures Valid() && fresh(Repr)
      ensures Model() == []
    {
      scenes := [];
      Repr := {this};
    }

    /** `addScene(text, summary)`: appends a new scene and returns its index. */
    method AddScene(text: string, summary: string) returns (index: int)
      requires Valid()
      modifies this
      ensures Valid() && fresh(Repr - old(Repr)) && old(Repr) <= Repr
      ensures Model() == old(Model()) + [SceneData(text, summary)]
      ensures index == |old(Model())| == |Model()| - 1
      ensures scenes[..index] == old(scenes)
    {
      var scene := new Scene(text, summary);
      scenes := scenes + [scene];
      Repr := Repr + {scene};
      index := |scenes| - 1;
    }

    /** `getScene(index)`: the scene object at `index`, or null out of range. */
    function GetScene(index: int): (r: Scene?)
      reads this, Repr
      requires Valid()
      ensures r == null <==> !(0 <= index < |Model()|)
      ensures r != null ==> r == scenes[index] && r in Repr && r.Data() == Model()[index]
    {
      if 0 <= index < |scenes| then scenes[index] else null
    }

    /** `updateScene(index, text, summary)`: rewrites the text and summary of the
        scene object at `index`; false and no change out of range. */
    method UpdateScene(index: int, text: string, summary: string) returns (ok: bool)
      requires Valid()
      modifies Repr
      ensures Valid() && Repr == old(Repr) && scenes == old(scenes)
      ensures ok <==> 0 <= index < |old(Model())|
      ensures Model() == if ok then old(Model())[index := SceneData(text, summary)] else old(Model())
    {
      var scene := GetScene(index);
      if scene != null {
        scene.Update(text, summary);
        ok := true;
      } else {
        ok := false;
      }
    }

    /** `removeScene(index)`: takes the scene at `index` out (later scenes move down
        one position) and returns it; null and no change out of range. */
    method RemoveScene(index: int) returns (r: Scene?)
      requires Valid()
      modifies this
      ensures Valid()
      ensures r == null <==> !(0 <= index < |old(Model())|)
      ensures scenes == if r == null then old(scenes) else Seqs.RemoveAt(old(scenes), index)
      ensures r == null ==> Model() == old(Model()) && Repr == old(Repr)
      ensures r != null ==>
        r == old(scenes)[index] && r.Data() == old(Model())[index] &&
        Model() == Seqs.RemoveAt(old(Model()), index) &&
        Repr == old(Repr) - {r}
    {
      if 0 <= index < |scenes| {
        r := scenes[index];
        scenes := Seqs.RemoveAt(scenes, index);
        Repr := Repr - {r};
      } else {
        r := null;
      }
    }

    /** `getSceneCount()` */
    function GetSceneCount(): (n: nat)
      reads this, Repr
      requires Valid()
      ensures n == |Model()|
    {
      |scenes|
    }

    /** `getChapterSummary()`: the scene summaries joined by single spaces. */
    function GetChapterSummary(): (r: string)
      reads this, Repr
      requires Valid()
      ensures r == ChapterSummary(Model())
    {
      var summaries := seq(|scenes|, i reads this, Repr requires 0 <= i < |scenes| && Valid() => scenes[i].summary);
      assert summaries == Summaries(Model());
      Seqs.Join(summaries, " ")
    }
  }

  class Story {
    var chapters: seq<Chapter>
    ghost var Repr: set<object>

    ghost predicate Valid()
      reads this, Repr
    {
      this in Repr &&
      (forall i :: 0 <= i < |chapters| ==>
        chapters[i] in Repr && chapters[i].Repr <= Repr && this !in chapters[i].Repr &&
        chapters[i].Valid()) &&
      (forall i, j :: 0 <= i < j < |chapters| ==> chapters[i].Repr !! chapters[j].Repr)
    }

    /** The story's value: each chapter's value, in order. */
    ghost function Model(): (m: seq<ChapterData>)
      reads this, Repr
      requires Valid()
      ensures |m| == |chapters|
      ensures forall i :: 0 <= i < |chapters| ==> m[i] == chapters[i].Model()
    {
      seq(|chapters|, i reads this, Repr requires 0 <= i < |chapters| && Valid() => chapters[i].Model())
    }

    constructor ()
      ensures Valid() && fresh(Repr)
      ensures Model() == []
    {
      chapters := [];
      Repr := {this};
    }

    /** `addChapter()`: appends a new empty chapter and returns its index. */
    method AddChapter() returns (index: int)
      requires Valid()
      modifies this
      ensures Valid() && fresh(Repr - old(Repr)) && old(Repr) <= Repr
      ensures Model() == old(Model()) + [[]]
      ensures index == |old(Model())| == |Model()| - 1
      ensures chapters[..index] == old(chapters)
    {
      var chapter := new Chapter();
      chapters := chapters + [chapter];
      Repr := Repr + chapter.Repr;
      index := |chapters| - 1;
    }

    /** `getChapter(index)`: the chapter object at `index`, or null out of range. */
    function GetChapter(index: int): (r: Chapter?)
      reads this, Repr
      requires Valid()
      ensures r == null <==> !(0 <= index < |Model()|)
      ensures r != null ==>
        r == chapters[index] && r.Valid() && r.Repr <= Repr && this !in r.Repr &&
        r.Model() == Model()[index]
    {
      if 0 <= index < |chapters| then chapters[index] else null
    }

    /** `removeChapter(index)`: takes the chapter at `index` out (later chapters move
        down one position) and returns it; null and no change out of range. */
    method RemoveChapter(index: int) returns (r: Chapter?)
      requires Valid()
      modifies this
      ensures Valid()
      ensures r == null <==> !(0 <= index < |old(Model())|)
      ensures chapters == if r == null then old(chapters) else Seqs.RemoveAt(old(chapters), index)
      ensures r == null ==> Model() == old(Model()) && Repr == old(Repr)
      ensures r != null ==>
        r == old(chapters)[index] && r.Valid() && r.Model() == old(Model())[index] &&
        Model() == Seqs.RemoveAt(old(Model()), index) &&
        Repr == old(Repr) - r.Repr
    {
      if 0 <= index < |chapters| {
        r := chapters[index];
        chapters := Seqs.RemoveAt(chapters, index);
        Repr := Repr - r.Repr;
      } else {
        r := null;
      }
    }

    /** `getChapterCount()` */
    function GetChapterCount(): (n: nat)
      reads this, Repr
      requires Valid()
      ensures n == |Model()|
    {
      |chapters|
    }

    /** `addSceneToChapter(chapterIndex, text, summary)`: appends a scene to the
        chapter at `chapterIndex` and returns its index there; -1 and no change when
        there is no such chapter. */
    method AddSceneToChapter(chapterIndex: int, text: string, summary: string) returns (index: int)
      requires Valid()
      modifies Repr
      ensures Valid() && fresh(Repr - old(Repr)) && old(Repr) <= Repr
      ensures chapters == old(chapters)
      ensures forall k :: 0 <= k < |chapters| && k != chapterIndex ==>
        chapters[k].scenes == old(chapters[k].scenes)
      ensures 0 <= chapterIndex < |chapters| ==>
        old(chapters[chapterIndex].scenes) <= chapters[chapterIndex].scenes
      ensures 0 <= chapterIndex < |old(Model())| ==>
        index == |old(Model())[chapterIndex]| &&
        Model() == old(Model())[chapterIndex := old(Model())[chapterIndex] + [SceneData(text, summary)]]
      ensures !(0 <= chapterIndex < |old(Model())|) ==>
        index == -1 && Model() == old(Model()) && Repr == old(Repr)
    {
      var chapter := GetChapter(chapterIndex);
      if chapter != null {
        index := chapter.AddScene(text, summary);
        Repr := Repr + chapter.Repr;
      } else {
        index := -1;
      }
    }

    /** `getStoryStats()`: the number of chapters, of scenes and of words. */
    method GetStoryStats() returns (stats: Stats)
      requires Valid()
      ensures stats == StatsOf(Model())
    {
      ghost var m := Model();
      var totalScenes := 0;
      var totalWords := 0;
      var i := 0;
      while i < |chapters|
        invariant 0 <= i <= |chapters|
        invariant totalScenes == TotalScenes(m[..i])
        invariant totalWords == TotalWords(m[..i])
      {
        var chapter := chapters[i];
        totalScenes := totalScenes + chapter.GetSceneCount();
        var j := 0;
        while j < |chapter.scenes|
          invariant 0 <= j <= |chapter.scenes|
          invariant totalWords == TotalWords(m[..i]) + SceneWords(m[i][..j])
        {
          totalWords := totalWords + chapter.scenes[j].GetWordCount();
          assert m[i][..j + 1][..j] == m[i][..j];
          j := j + 1;
        }
        assert m[i][..j] == m[i];
        assert m[..i + 1][..i] == m[..i];
        i := i + 1;
      }
      assert m[..i] == m;
      stats := Stats(|chapters|, totalScenes, totalWords);
    }

    /** `getStoryOutline()`: one record per chapter, numbered from 1, with its scene
        count and chapter summary. */
    function GetStoryOutline(): (r: seq<OutlineItem>)
      reads this, Repr
      requires Valid()
      ensures r == OutlineOf(Model())
    {
      seq(|chapters|, i reads this, Repr requires 0 <= i < |chapters| && Valid() =>
        OutlineItem(i + 1, chapters[i].GetSceneCount(), chapters[i].GetChapterSummary()))
    }
  }
}

=== FILE: seqs.dfy ===
/**
 * The array and string operations the data classes are built from: `splice(i, 1)`
 * on an array, and `join(sep)` / `split(sep)` on strings.
 */
module Seqs {

  /** `a.splice(i, 1)` seen on the array that remains: the element at `i` is
      gone, earlier elements keep their index and later ones move down by one. */
  function RemoveAt<T>(s: seq<T>, i: nat): (r: seq<T>)
    requires i < |s|
    ensures |r| == |s| - 1
    ensures forall k :: 0 <= k < i ==> r[k] == s[k]
    ensures forall k :: i <= k < |r| ==> r[k] == s[k + 1]
    ensures multiset(r) + multiset{s[i]} == multiset(s)
  {
    assert s == s[..i] + [s[i]] + s[i + 1..];
    s[..i] + s[i + 1..]
  }

  /** `xs.join(sep)`: the empty array gives the empty string. */
  function Join(xs: seq<string>, sep: string): (r: string)
    ensures |xs| == 1 ==> r == xs[0]
  {
    if |xs| == 0 then ""
    else if |xs| == 1 then xs[0]
    else xs[0] + sep + Join(xs[1..], sep)
  }

  /** The part of `s` before the first `c`, or all of `s` when it holds no `c`. */
  function UpTo(s: string, c: char): (p: string)
    ensures |p| <= |s| && p == s[..|p|]
    ensures c !in p
    ensures |p| < |s| ==> s[|p|] == c
  {
    if s == [] || s[0] == c then [] else [s[0]] + UpTo(s[1..], c)
  }

  /** `s.split(c)` for a one-character separator: always at least one piece. */
  function SplitOn(s: string, c: char): (pieces: seq<string>)
    ensures |pieces| >= 1
    ensures forall k :: 0 <= k < |pieces| ==> c !in pieces[k]
    decreases |s|
  {
    var p := UpTo(s, c);
    if |p| == |s| then [s] else [p] + SplitOn(s[|p| + 1..], c)
  }

  lemma UpToSeparated(a: string, c: char, b: string)
    requires c !in a
    ensures UpTo(a + [c] + b, c) == a
  {
    if a != [] {
      assert (a + [c] + b)[1..] == a[1..] + [c] + b;
      UpToSeparated(a[1..], c, b);
    }
  }

  /** A piece without the separator, then the separator: the split starts with
      that piece and goes on with the split of the rest. */
  lemma SplitOnSeparated(a: string, c: char, b: string)
    requires c !in a
    ensures SplitOn(a + [c] + b, c) == [a] + SplitOn(b, c)
  {
    var s := a + [c] + b;
    UpToSeparated(a, c, b);
    assert s[|a| + 1..] == b;
  }

  /** Joining pieces that do not hold the separator, then splitting on it,
      gives the pieces back. */
  lemma {:induction false} SplitJoin(xs: seq<string>, c: char)
    requires |xs| >= 1
    requires forall k :: 0 <= k < |xs| ==> c !in xs[k]
    ensures SplitOn(Join(xs, [c]), c) == xs
  {
    if |xs| == 1 {
      assert UpTo(xs[0], c) == xs[0];
    } else {
      var rest := Join(xs[1..], [c]);
      assert Join(xs, [c]) == xs[0] + [c] + rest;
      SplitOnSeparated(xs[0], c, rest);
      SplitJoin(xs[1..], c);
      assert xs == [xs[0]] + xs[1..];
    }
  }

  /** Splitting on a separator, then joining with it, gives the string back. */
  lemma {:induction false} JoinSplit(s: string, c: char)
    ensures Join(SplitOn(s, c), [c]) == s
    decreases |s|
  {
    var p := UpTo(s, c);
    if |p| < |s| {
      var t := s[|p| + 1..];
      var tail := SplitOn(t, c);
      assert SplitOn(s, c) == [p] + tail;
      assert ([p] + tail)[1..] == tail;
      JoinSplit(t, c);
      assert s == p + [c] + t;
    }
  }

  /** Appending one more element adds the separator and that element. */
  lemma {:induction false} JoinAppend(xs: seq<string>, sep: string, x: string)
    requires |xs| >= 1
    ensures Join(xs + [x], sep) == Join(xs, sep) + sep + x
  {
    if |xs| > 1 {
      assert (xs + [x])[1..] == xs[1..] + [x];
      JoinAppend(xs[1..], sep, x);
    }
  }
}

=== FILE: story_values.dfy ===
/**
 * The value a story holds, independent of the objects that hold it: a chapter is
 * the sequence of its scenes' (text, summary) pairs, a story the sequence of its
 * chapters. The statistics and the outline are defined here on those values.
 */
module StoryValues {
  import Words
  import Seqs

  datatype SceneData = SceneData(text: string, summary: string)

  type ChapterData = seq<SceneData>

  /** The record returned by `getStoryStats()`. */
  datatype Stats = Stats(chapters: nat, scenes: nat, words: nat)

  /** One record of `getStoryOutline()`. */
  datatype OutlineItem = OutlineItem(chapter: int, sceneCount: nat, summary: string)

  /** `scenes.map(scene => scene.summary)` */
  function Summaries(c: ChapterData): (r: seq<string>)
    ensures |r| == |c|
    ensures forall i :: 0 <= i < |c| ==> r[i] == c[i].summary
  {
    if c == [] then [] else Summaries(c[..|c| - 1]) + [c[|c| - 1].summary]
  }

  /** `getChapterSummary()`: the scene summaries, in order, joined by one space. */
  function ChapterSummary(c: ChapterData): string {
    Seqs.Join(Summaries(c), " ")
  }

  /** A scene added at the end contributes its summary after one space. */
  lemma {:induction false} ChapterSummaryAppend(c: ChapterData, s: SceneData)
    ensures ChapterSummary(c + [s]) ==
      if c == [] then s.summary else ChapterSummary(c) + " " + s.summary
  {
    assert Summaries(c + [s]) == Summaries(c) + [s.summary];
    if c != [] {
      Seqs.JoinAppend(Summaries(c), " ", s.summary);
    }
  }

  /** When no summary holds a space, the chapter summary splits back into the
      scene summaries, one per scene. */
  lemma {:induction false} ChapterSummarySplits(c: ChapterData)
    requires c != []
    requires forall i :: 0 <= i < |c| ==> ' ' !in c[i].summary
    ensures Seqs.SplitOn(ChapterSummary(c), ' ') == Summaries(c)
  {
    Seqs.SplitJoin(Summaries(c), ' ');
  }

  /** Words in the texts of the given scenes. */
  function SceneWords(c: seq<SceneData>): nat {
    if c == [] then 0 else SceneWords(c[..|c| - 1]) + Words.WordCount(c[|c| - 1].text)
  }

  /** Scenes over all chapters, chapter by chapter. */
  function TotalScenes(m: seq<ChapterData>): nat {
    if m == [] then 0 else TotalScenes(m[..|m| - 1]) + |m[|m| - 1]|
  }

  /** Words over all scenes of all chapters. */
  function TotalWords(m: seq<ChapterData>): nat {
    if m == [] then 0 else TotalWords(m[..|m| - 1]) + SceneWords(m[|m| - 1])
  }

  /** The statistics of a story value. */
  function StatsOf(m: seq<ChapterData>): Stats {
    Stats(|m|, TotalScenes(m), TotalWords(m))
  }

  /** Every scene of the story, in reading order. */
  function Flatten(m: seq<ChapterData>): seq<SceneData> {
    if m == [] then [] else Flatten(m[..|m| - 1]) + m[|m| - 1]
  }

  /** `getStoryOutline()` on a story value: one record per chapter, numbered from 1. */
  function OutlineOf(m: seq<ChapterData>): (r: seq<OutlineItem>)
    ensures |r| == |m|
    ensures forall i :: 0 <= i < |m| ==>
      r[i] == OutlineItem(i + 1, |m[i]|, ChapterSummary(m[i]))
  {
    seq(|m|, i requires 0 <= i < |m| => OutlineItem(i + 1, |m[i]|, ChapterSummary(m[i])))
  }

  function SumSceneCounts(items: seq<OutlineItem>): nat {
    if items == [] then 0 else SumSceneCounts(items[..|items| - 1]) + items[|items| - 1].sceneCount
  }

  lemma {:induction false} SceneWordsConcat(a: seq<SceneData>, b: seq<SceneData>)
    ensures SceneWords(a + b) == SceneWords(a) + SceneWords(b)
    decreases |b|
  {
    if b != [] {
      assert (a + b)[..|a + b| - 1] == a + b[..|b| - 1];
      SceneWordsConcat(a, b[..|b| - 1]);
    } else {
      assert a + b == a;
    }
  }

  lemma {:induction false} TotalsConcat(a: seq<ChapterData>, b: seq<ChapterData>)
    ensures TotalScenes(a + b) == TotalScenes(a) + TotalScenes(b)
    ensures TotalWords(a + b) == TotalWords(a) + TotalWords(b)
    decreases |b|
  {
    if b != [] {
      assert (a + b)[..|a + b| - 1] == a + b[..|b| - 1];
      TotalsConcat(a, b[..|b| - 1]);
    } else {
      assert a + b == a;
    }
  }

  /** The scene total counts every scene of the flattened story, and the word
      total counts the words of exactly those scenes. */
  lemma {:induction false} TotalsAreFlattened(m: seq<ChapterData>)
    ensures TotalScenes(m) == |Flatten(m)|
    ensures TotalWords(m) == SceneWords(Flatten(m))
  {
    if m != [] {
      TotalsAreFlattened(m[..|m| - 1]);
      SceneWordsConcat(Flatten(m[..|m| - 1]), m[|m| - 1]);
    }
  }

  lemma {:induction false} TotalsSingle(c: ChapterData)
    ensures TotalScenes([c]) == |c| && TotalWords([c]) == SceneWords(c)
  {
  }

  lemma {:induction false} TotalsAround(m: seq<ChapterData>, i: nat)
    requires i < |m|
    ensures m == m[..i] + [m[i]] + m[i + 1..]
    ensures TotalScenes(m) == TotalScenes(m[..i]) + |m[i]| + TotalScenes(m[i + 1..])
    ensures TotalWords(m) == TotalWords(m[..i]) + SceneWords(m[i]) + TotalWords(m[i + 1..])
  {
    assert m == m[..i] + [m[i]] + m[i + 1..];
    TotalsConcat(m[..i] + [m[i]], m[i + 1..]);
    TotalsConcat(m[..i], [m[i]]);
    TotalsSingle(m[i]);
  }

  /** Replacing one chapter changes the totals by that chapter's difference only. */
  lemma {:induction false} TotalsUpdate(m: seq<ChapterData>, i: nat, c: ChapterData)
    requires i < |m|
    ensures TotalScenes(m[i := c]) == TotalScenes(m) - |m[i]| + |c|
    ensures TotalWords(m[i := c]) == TotalWords(m) - SceneWords(m[i]) + SceneWords(c)
  {
    var m' := m[i := c];
    TotalsAround(m, i);
    TotalsAround(m', i);
    assert m'[..i] == m[..i] && m'[i + 1..] == m[i + 1..];
  }

  /** Adding a scene to chapter `i` adds one scene and that scene's words. */
  lemma {:induction false} AddSceneTotals(m: seq<ChapterData>, i: nat, s: SceneData)
    requires i < |m|
    ensures StatsOf(m[i := m[i] + [s]]) ==
      Stats(|m|, TotalScenes(m) + 1, TotalWords(m) + Words.WordCount(s.text))
  {
    TotalsUpdate(m, i, m[i] + [s]);
    assert (m[i] + [s])[..|m[i]|] == m[i];
  }

  /** Adding an empty chapter adds a chapter and no scenes or words, and one
      outline record numbered after the others, with no scenes and an empty summary. */
  lemma {:induction false} AddChapterTotals(m: seq<ChapterData>)
    ensures StatsOf(m + [[]]) == Stats(|m| + 1, TotalScenes(m), TotalWords(m))
    ensures OutlineOf(m + [[]]) == OutlineOf(m) + [OutlineItem(|m| + 1, 0, "")]
  {
  }

  /** Removing chapter `i` removes exactly its scenes and its words. */
  lemma {:induction false} RemoveChapterTotals(m: seq<ChapterData>, i: nat)
    requires i < |m|
    ensures var after := StatsOf(Seqs.RemoveAt(m, i));
      after.chapters == |m| - 1 &&
      after.scenes + |m[i]| == TotalScenes(m) &&
      after.words + SceneWords(m[i]) == TotalWords(m)
  {
    TotalsAround(m, i);
    assert Seqs.RemoveAt(m, i) == m[..i] + m[i + 1..];
    TotalsConcat(m[..i], m[i + 1..]);
  }

  /** The scene counts of the outline add up to the scene total of the statistics. */
  lemma {:induction false} OutlineCountsSumToTotal(m: seq<ChapterData>)
    ensures SumSceneCounts(OutlineOf(m)) == StatsOf(m).scenes
    ensures |OutlineOf(m)| == StatsOf(m).chapters
  {
    if m != [] {
      var init := m[..|m| - 1];
      OutlineCountsSumToTotal(init);
      var o := OutlineOf(m);
      assert o[..|o| - 1] == OutlineOf(init);
    }
  }
}

=== FILE: words.dfy ===
/**
 * Word counting of scene text: `text.split(/\s+/).filter(w => w.length > 0).length`.
 *
 * `Split` follows the JavaScript split on maximal whitespace runs (empty pieces at
 * either end included), `NonEmpty` is the filter, `WordCount` the length. The
 * independent reference is `CountWordStarts`: the number of positions where a
 * non-whitespace character follows whitespace or the start of the text.
 */
module Words {

  /** JavaScript's `\s`: the ECMAScript WhiteSpace and LineTerminator characters
      (tab, line feed, vertical tab, form feed, carriage return, the Unicode space
      separators, the line and paragraph separators, and the byte-order mark). */
  predicate IsSpace(c: char) {
    c == '\t' || c == '\n' || c == '\U{000B}' || c == '\U{000C}' || c == '\r' ||
    c == ' ' || c == '\U{00A0}' || c == '\U{1680}' ||
    ('\U{2000}' <= c <= '\U{200A}') ||
    c == '\U{2028}' || c == '\U{2029}' || c == '\U{202F}' || c == '\U{205F}' ||
    c == '\U{3000}' || c == '\U{FEFF}'
  }

  predicate NoSpace(s: string) {
    forall k :: 0 <= k < |s| ==> !IsSpace(s[k])
  }

  predicate AllSpace(s: string) {
    forall k :: 0 <= k < |s| ==> IsSpace(s[k])
  }

  /** The end of the non-whitespace run that starts at `i`. */
  function WordEnd(s: string, i: nat): (e: nat)
    requires i <= |s|
    ensures i <= e <= |s|
    ensures forall k :: i <= k < e ==> !IsSpace(s[k])
    ensures e < |s| ==> IsSpace(s[e])
    decreases |s| - i
  {
    if i == |s| || IsSpace(s[i]) then i else WordEnd(s, i + 1)
  }

  /** The end of the whitespace run that starts at `i`. */
  function SpaceEnd(s: string, i: nat): (e: nat)
    requires i <= |s|
    ensures i <= e <= |s|
    ensures forall k :: i <= k < e ==> IsSpace(s[k])
    ensures e < |s| ==> !IsSpace(s[e])
    decreases |s| - i
  {
    if i == |s| || !IsSpace(s[i]) then i else SpaceEnd(s, i + 1)
  }

  /** `s[i..].split(/\s+/)`. */
  function SplitFrom(s: string, i: nat): (pieces: seq<string>)
    requires i <= |s|
    ensures |pieces| >= 1
    ensures forall k :: 0 <= k < |pieces| ==> NoSpace(pieces[k])
    decreases |s| - i
  {
    var e := WordEnd(s, i);
    if e == |s| then [s[i..]] else [s[i..e]] + SplitFrom(s, SpaceEnd(s, e))
  }

  /** `s.split(/\s+/)`: the pieces between maximal whitespace runs. A text that
      starts (ends) with whitespace yields an empty first (last) piece, and the
      empty text yields one empty piece. */
  function Split(s: string): (pieces: seq<string>)
    ensures |pieces| >= 1
    ensures forall k :: 0 <= k < |pieces| ==> NoSpace(pieces[k])
    ensures pieces[0] == [] <==> s == [] || IsSpace(s[0])
  {
    SplitFrom(s, 0)
  }

  /** `.filter(word => word.length > 0)` */
  function NonEmpty(pieces: seq<string>): (r: seq<string>)
    ensures |r| <= |pieces|
    ensures forall k :: 0 <= k < |r| ==> r[k] != [] && r[k] in pieces
    ensures forall x :: x in pieces && x != [] ==> x in r
  {
    if pieces == [] then []
    else (if pieces[0] == [] then [] else [pieces[0]]) + NonEmpty(pieces[1..])
  }

  /** The filter works piece by piece, so it keeps the order of what it keeps. */
  lemma {:induction false} NonEmptyConcat(a: seq<string>, b: seq<string>)
    ensures NonEmpty(a + b) == NonEmpty(a) + NonEmpty(b)
    decreases |a|
  {
    if a == [] {
      assert a + b == b;
    } else {
      var keep := if a[0] == [] then [] else [a[0]];
      assert (a + b)[1..] == a[1..] + b;
      assert NonEmpty(a + b) == keep + NonEmpty(a[1..] + b);
      NonEmptyConcat(a[1..], b);
      assert keep + (NonEmpty(a[1..]) + NonEmpty(b)) == (keep + NonEmpty(a[1..])) + NonEmpty(b);
    }
  }

  /** The words of `s`, in order. */
  function WordsOf(s: string): (ws: seq<string>)
    ensures forall k :: 0 <= k < |ws| ==> ws[k] != [] && NoSpace(ws[k])
  {
    NonEmpty(Split(s))
  }

  /** `getWordCount()` on a text. */
  function WordCount(s: string): (n: nat)
    ensures n == CountWordStarts(s, |s|)
  {
    SplitFromCount(s, 0);
    |WordsOf(s)|
  }

  /** Position `i` begins a word: a non-whitespace character at the start of the
      text or right after whitespace. */
  predicate StartsWord(s: string, i: int)
    requires 0 <= i < |s|
  {
    !IsSpace(s[i]) && (i == 0 || IsSpace(s[i - 1]))
  }

  /** The number of word starts among the first `n` positions of `s`. */
  function CountWordStarts(s: string, n: nat): nat
    requires n <= |s|
  {
    if n == 0 then 0 else CountWordStarts(s, n - 1) + (if StartsWord(s, n - 1) then 1 else 0)
  }

  /** A non-whitespace run that starts a word holds exactly one word start. */
  lemma {:induction false} WordRunCount(s: string, i: nat, j: nat)
    requires i <= j <= |s|
    requires i == 0 || IsSpace(s[i - 1])
    requires forall k :: i <= k < j ==> !IsSpace(s[k])
    ensures CountWordStarts(s, j) == CountWordStarts(s, i) + (if i < j then 1 else 0)
  {
    if i < j {
      WordRunCount(s, i, j - 1);
    }
  }

  /** A whitespace run holds no word start. */
  lemma {:induction false} SpaceRunCount(s: string, i: nat, j: nat)
    requires i <= j <= |s|
    requires forall k :: i <= k < j ==> IsSpace(s[k])
    ensures CountWordStarts(s, j) == CountWordStarts(s, i)
  {
    if i < j {
      SpaceRunCount(s, i, j - 1);
    }
  }

  /** The non-empty pieces of `s[i..]` are exactly the word starts from `i` on. */
  lemma {:induction false} SplitFromCount(s: string, i: nat)
    requires i <= |s|
    requires i == 0 || IsSpace(s[i - 1])
    ensures |NonEmpty(SplitFrom(s, i))| + CountWordStarts(s, i) == CountWordStarts(s, |s|)
    decreases |s| - i
  {
    var e := WordEnd(s, i);
    WordRunCount(s, i, e);
    var piece := s[i..e];
    assert |piece| == e - i;
    if e == |s| {
      assert s[i..] == piece;
      assert SplitFrom(s, i) == [piece];
      assert NonEmpty([piece]) == (if piece == [] then [] else [piece]) + NonEmpty([]);
    } else {
      var j := SpaceEnd(s, e);
      SpaceRunCount(s, e, j);
      var tail := SplitFrom(s, j);
      assert SplitFrom(s, i) == [piece] + tail;
      assert ([piece] + tail)[1..] == tail;
      SplitFromCount(s, j);
    }
  }

  lemma {:induction false} SomeWordStart(s: string, n: nat, k: nat)
    requires k < n <= |s| && !IsSpace(s[k])
    ensures CountWordStarts(s, n) >= 1
  {
    if !StartsWord(s, n - 1) {
      if k < n - 1 {
        SomeWordStart(s, n - 1, k);
      } else {
        SomeWordStart(s, n - 1, n - 2);
      }
    }
  }

  /** An empty or all-whitespace text has no words, and only such a text has none. */
  lemma BlankHasNoWords(s: string)
    ensures WordCount(s) == 0 <==> AllSpace(s)
  {
    if AllSpace(s) {
      SpaceRunCount(s, 0, |s|);
    } else {
      var k :| 0 <= k < |s| && !IsSpace(s[k]);
      SomeWordStart(s, |s|, k);
    }
  }

  /** The word starts at positions `i` and after, in increasing order: a scan of
      the text one position at a time. */
  function StartsAfter(s: string, i: nat): (r: seq<nat>)
    requires i <= |s|
    ensures forall k :: 0 <= k < |r| ==> i <= r[k] < |s|
    decreases |s| - i
  {
    if i == |s| then []
    else (if StartsWord(s, i) then [i] else []) + StartsAfter(s, i + 1)
  }

  /** `StartsAfter(s, i)` lists exactly the word starts from `i` on, each once and
      in increasing order. */
  lemma {:induction false} StartsAfterExact(s: string, i: nat)
    requires i <= |s|
    ensures forall k :: 0 <= k < |StartsAfter(s, i)| ==> StartsWord(s, StartsAfter(s, i)[k])
    ensures forall k, l :: 0 <= k < l < |StartsAfter(s, i)| ==> StartsAfter(s, i)[k] < StartsAfter(s, i)[l]
    ensures forall p :: i <= p < |s| && StartsWord(s, p) ==> p in StartsAfter(s, i)
    decreases |s| - i
  {
    if i < |s| {
      StartsAfterExact(s, i + 1);
    }
  }

  /** Every word start of `s`, in increasing order. */
  function WordStarts(s: string): seq<nat> {
    StartsAfter(s, 0)
  }

  /** The maximal non-whitespace run that begins at each of the given positions. */
  function Runs(s: string, ps: seq<nat>): (r: seq<string>)
    requires forall k :: 0 <= k < |ps| ==> ps[k] <= |s|
    ensures |r| == |ps|
    ensures forall k :: 0 <= k < |ps| ==> r[k] == s[ps[k]..WordEnd(s, ps[k])]
  {
    if ps == [] then [] else [s[ps[0]..WordEnd(s, ps[0])]] + Runs(s, ps[1..])
  }

  /** Inside a non-whitespace run no position starts a word. */
  lemma {:induction false} NoStartsInWord(s: string, k: nat, e: nat)
    requires 0 < k <= e <= |s|
    requires forall q :: k - 1 <= q < e ==> !IsSpace(s[q])
    ensures StartsAfter(s, k) == StartsAfter(s, e)
    decreases e - k
  {
    if k < e {
      NoStartsInWord(s, k + 1, e);
      assert !StartsWord(s, k);
      assert StartsAfter(s, k) == [] + StartsAfter(s, k + 1);
    }
  }

  /** Inside a whitespace run no position starts a word. */
  lemma {:induction false} NoStartsInSpace(s: string, k: nat, e: nat)
    requires k <= e <= |s|
    requires forall q :: k <= q < e ==> IsSpace(s[q])
    ensures StartsAfter(s, k) == StartsAfter(s, e)
    decreases e - k
  {
    if k < e {
      NoStartsInSpace(s, k + 1, e);
      assert !StartsWord(s, k);
      assert StartsAfter(s, k) == [] + StartsAfter(s, k + 1);
    }
  }

  /** The word starts from `i` on: `i` itself when a word begins there, then those
      after the run at `i`. */
  lemma {:induction false} StartsAtRun(s: string, i: nat)
    requires i <= |s|
    requires i == 0 || IsSpace(s[i - 1])
    ensures StartsAfter(s, i) ==
      (if i < WordEnd(s, i) then [i] else []) + StartsAfter(s, WordEnd(s, i))
  {
    var e := WordEnd(s, i);
    if i < e {
      assert StartsWord(s, i);
      NoStartsInWord(s, i + 1, e);
    } else {
      assert StartsAfter(s, i) == [] + StartsAfter(s, e);
    }
  }

  /** The first piece survives the filter exactly when a word starts at `i`. */
  lemma {:induction false} FirstPieceRuns(s: string, i: nat)
    requires i <= |s|
    ensures NonEmpty([s[i..WordEnd(s, i)]]) ==
      Runs(s, if i < WordEnd(s, i) then [i] else [])
  {
    var piece := s[i..WordEnd(s, i)];
    assert NonEmpty([piece]) == (if piece == [] then [] else [piece]) + NonEmpty([]);
  }

  /** The split ends with the run at `i` when that run reaches the end of `s`. */
  lemma SplitFromLast(s: string, i: nat)
    requires i <= |s| && WordEnd(s, i) == |s|
    ensures SplitFrom(s, i) == [s[i..WordEnd(s, i)]]
  {
    assert s[i..] == s[i..WordEnd(s, i)];
  }

  /** Otherwise the run at `i` is followed by the split after the whitespace run. */
  lemma SplitFromNext(s: string, i: nat)
    requires i <= |s| && WordEnd(s, i) < |s|
    ensures SplitFrom(s, i) == [s[i..WordEnd(s, i)]] + SplitFrom(s, SpaceEnd(s, WordEnd(s, i)))
  {
  }

  /** The non-empty pieces of `s[i..].split(/\s+/)` are the runs at the word starts
      from `i` on. */
  lemma {:induction false} SplitFromWords(s: string, i: nat)
    requires i <= |s|
    requires i == 0 || IsSpace(s[i - 1])
    ensures NonEmpty(SplitFrom(s, i)) == Runs(s, StartsAfter(s, i))
    decreases |s| - i
  {
    var e := WordEnd(s, i);
    var head: seq<nat> := if i < e then [i] else [];
    StartsAtRun(s, i);
    FirstPieceRuns(s, i);
    if e == |s| {
      SplitFromLast(s, i);
      assert StartsAfter(s, e) == [];
      assert head + [] == head;
    } else {
      var j := SpaceEnd(s, e);
      SplitFromNext(s, i);
      NoStartsInSpace(s, e, j);
      SplitFromWords(s, j);
      PieceThenRest(s, s[i..e], SplitFrom(s, j), head, StartsAfter(s, j));
    }
  }

  /** A piece followed by more pieces filters to the runs of both position lists. */
  lemma PieceThenRest(s: string, piece: string, rest: seq<string>, head: seq<nat>, starts: seq<nat>)
    requires forall k :: 0 <= k < |head| ==> head[k] <= |s|
    requires forall k :: 0 <= k < |starts| ==> starts[k] <= |s|
    requires NonEmpty([piece]) == Runs(s, head)
    requires NonEmpty(rest) == Runs(s, starts)
    ensures NonEmpty([piece] + rest) == Runs(s, head + starts)
  {
    NonEmptyConcat([piece], rest);
    RunsConcat(s, head, starts);
  }

  lemma {:induction false} RunsConcat(s: string, a: seq<nat>, b: seq<nat>)
    requires forall k :: 0 <= k < |a| ==> a[k] <= |s|
    requires forall k :: 0 <= k < |b| ==> b[k] <= |s|
    ensures Runs(s, a + b) == Runs(s, a) + Runs(s, b)
  {
    assert forall k :: 0 <= k < |a + b| ==> (a + b)[k] <= |s|;
  }

  /** The words of `s` are, in order, the maximal non-whitespace runs that begin at
      its word starts. */
  lemma WordsAreRuns(s: string)
    ensures WordsOf(s) == Runs(s, WordStarts(s))
  {
    SplitFromWords(s, 0);
  }
}
